=== FILE: README.md ===
# BU wallet: access policy, profile update and history projection

A Dafny model of the small decision and projection rules around the BU wallet app.

- **Page-access policy** (`access.dfy`). This is the table of which page an account may open for each role and app mode (`user`, shown as Guest; `celebrant`; `vendor`). It also covers the mode chosen at sign-in and the redirect guard that sends an account back to Guest mode or to the dashboard.
- **Current-user endpoint** (`users_me.dfy`). GET reads the signed-in user, with a fallback lookup by phone number. PUT builds the update object from the request body and performs the one-way upgrade of `user`/`celebrant` to `both`. It refuses an empty update and returns the user with the display name `first_name + " " + last_name`.
- **Wallet-history endpoint** (`transactions.dfy`). It keeps the transfers in which the user is sender or receiver and orders them newest first. It then takes the window `[offset, offset + limit - 1]`, with defaults 50 and 0. Each row is projected to a transaction typed and described from the user's side.
- **Wallet screen** (`wallet.dfy`). It classifies each transaction as incoming or outgoing, which sets the arrow, the colours and the `+`/`-` sign. It also holds the top-up amount check, the balance default, and the fixed history request.
- **Profile screen** (`profile.dfy`). This covers the initials badge, the header name, the role label and the two vendor sections. It also covers the edit form: its prefill, when Save is enabled, and the requests it sends.

Shared pieces:
- `strings.dfy` models JavaScript's `split`/`join` on one character, `startsWith` and upper-casing.
- `roles.dfy` defines the closed role variant.
- `api.dfy` holds the authenticated caller and the success/error envelope.
- `wrappers.dfy` defines `Option`.

Database reads are input sequences of rows. The store's failures are inputs too, as `Option<string>` error messages. The authenticated caller is an `Option<AuthUser>`, where None means no valid session.

Three behaviours of the code are easy to get wrong, and the model keeps them as the code has them:
- An upgrade-only request on an account that is already `vendor` or `both` is not a no-op. It builds an empty update, and the endpoint answers 400 "No fields to update" (`UsersMe.UpgradeOnlyRejectedWithoutGuestRole`).
- A row's direction is not simply "out when the user sent it". A `gateway_qr` row is typed `bu_transfer` for both parties, so the wallet shows it as incoming (`+`) even to its sender (`Wallet.SentGatewayQrShowsPlus`).
- `total` in the history response counts the returned page, not all of the user's transfers.

No ledger, balance arithmetic, transfer execution, locking or idempotency key appears in the modelled code, so none is modelled.

## Model

| member | source | states |
|---|---|---|
| Strings.Split | components/profile.tsx:85 | `split(' ')` always yields at least one part; no part contains the separator; there is more than one part exactly when the separator occurs |
| Strings.JoinSplit | components/profile.tsx:95-96 | joining the parts of a split with the same separator gives back the original string |
| Strings.SplitFirst | components/profile.tsx:95-96 | the first part of a split is the whole string when the separator does not occur (and nothing remains), and otherwise the text before the first separator, the rest being the other parts joined |
| Strings.SplitJoin | components/profile.tsx:85 | splitting a join of separator-free parts (at least one) gives back those parts |
| Strings.Upper | components/profile.tsx:88 | upper-casing keeps the length and upper-cases each character in place |
| Roles.RoleNameInjective | app/page.tsx:41 | the six role strings are pairwise distinct, so each stored string names at most one role |
| Roles.RoleClasses | app/page.tsx:139-153 | every role has Guest/Celebrant access, is `vendor`, or is staff; staff has neither guest nor vendor access; only `both` has both |
| Access.InitialMode | app/page.tsx:94-99 | after sign-in the mode is `vendor` exactly for `vendor`/`both` and `user` otherwise (the same rule is at line 72) |
| Access.GuardStep | app/page.tsx:163-176 | after one guard run the page is accessible in the resulting mode and vendor mode is legal; the guard changes nothing, or its new page is the dashboard; an illegal vendor mode always lands on Guest mode and the dashboard, and it is the only reason the mode ever changes |
| Access.GuardFixedPoints | app/page.tsx:166-173 | the guard leaves a view unchanged exactly when its mode is legal for the role and its page is accessible |
| Access.GuardIdempotent | app/page.tsx:166-171 | a second guard run is a no-op |
| Access.SignInViewIsStable | app/page.tsx:94-100 | the view set at sign-in (initial mode, dashboard) is not redirected |
| Access.CommonPagesAlwaysOpen | app/page.tsx:131 | dashboard, profile and notifications are accessible for every role and mode |
| Access.NoVendorPrefixOutsideVendorPages | app/page.tsx:131-148 | no common, Guest or Celebrant whitelisted page starts with `vendor-` |
| Access.VendorPrefixedPages | app/page.tsx:134-136 | a `vendor-` page is accessible iff the role is `vendor`/`both` and the mode is `vendor` |
| Access.VendorCreateEventAccess | app/page.tsx:133-156 | `vendor-create-event` is missing from the vendor whitelist, yet it is accessible exactly for vendor roles in vendor mode |
| Access.GuestModeAccess | app/page.tsx:139-144 | in `user` mode, `user`/`celebrant`/`both` get exactly the common pages plus the 12-page whitelist; other roles get only the common pages |
| Access.CelebrantModeAccess | app/page.tsx:145-150 | in `celebrant` mode, `user`/`celebrant`/`both` get exactly the common pages plus the 6-page whitelist; other roles get only the common pages |
| Access.VendorModeAccess | app/page.tsx:151-156 | in `vendor` mode, vendor roles get the common pages, `wallet`, `spraying` and every `vendor-` page; others get only the common pages |
| Access.StaffAccess | app/page.tsx:130-159 | admin and superadmin can access only the common pages, in every mode |
| UsersMe.FindById | app/api/users/me/route.ts:18-22 | the lookup by id returns a row of the table with that id, and returns nothing exactly when no row has it |
| UsersMe.WithPhone | app/api/users/me/route.ts:32-36 | the lookup by phone holds every row with that phone number exactly as often as the table does, and no other row |
| UsersMe.GetMe | app/api/users/me/route.ts:6-66 | no session gives 401; a query error gives 500; a row with the token's id is returned; with no such row, the one row holding the token's phone is returned when there is exactly one, and 401 "Authentication invalid" otherwise (both directions); a returned name is first + " " + last |
| UsersMe.UpgradedRole | app/api/users/me/route.ts:95-104 | the upgrade changes only `user`/`celebrant` (to `both`), never downgrades, keeps Guest access, and gives vendor access to every non-staff role |
| UsersMe.UpgradeIdempotent | app/api/users/me/route.ts:97-103 | upgrading an already upgraded role changes nothing |
| UsersMe.BuildUpdate | app/api/users/me/route.ts:80-105 | names enter only when truthy; email enters whenever present, including `null` and the empty string; the role enters (as `both`) only for an upgrade on a `user`/`celebrant` row |
| UsersMe.Apply | app/api/users/me/route.ts:111-116 | the update keeps id, phone and creation time; each of first name, last name, email and role takes the update's value when the update has that key and keeps the row's value otherwise |
| UsersMe.ApplyIdempotent | app/api/users/me/route.ts:111-116 | applying the same update twice equals applying it once |
| UsersMe.Updated | app/api/users/me/route.ts:111-114 | the update rewrites every row with the caller's id and leaves every other row as it was |
| UsersMe.FindByIdAfterUpdate | app/api/users/me/route.ts:18-22 | after the update, the lookup by id finds the updated form of the row it found before, and still nothing when there was none |
| UsersMe.PutMe | app/api/users/me/route.ts:69-133 | no session gives 401 before anything else; 400 "No fields to update" exactly when the assembled update is empty; a non-empty update with a store error gives 500 "Failed to update user: " + the message; without a store error it succeeds exactly when the caller's row exists, and a missing row gives 500 "Failed to update user: " + the missing-row message; a success is the caller's row with the update applied, its role upgraded iff asked, and its name first + " " + last |
| UsersMe.UpgradeOnlyRejectedWithoutGuestRole | app/api/users/me/route.ts:95-109 | an upgrade-only request on a `vendor`, `both`, admin or superadmin account is answered 400 "No fields to update" |
| UsersMe.UpgradeOnlyOnGuestRole | app/api/users/me/route.ts:97-98 | an upgrade-only request on a `user`/`celebrant` account succeeds with role `both` |
| UsersMe.UpgradeOnlyWithoutRow | app/api/users/me/route.ts:89-109 | an upgrade-only request whose role lookup finds no row is answered 400 "No fields to update" |
| UsersMe.PutThenGet | app/api/users/me/route.ts:55-61 | a GET after an accepted PUT returns the user the PUT returned |
| Transactions.Involving | app/api/wallets/transactions/route.ts:26 | keeps exactly the rows where the user is sender or receiver, each with its multiplicity in the table |
| Transactions.InsertByDate | app/api/wallets/transactions/route.ts:27 | inserting into a newest-first sequence keeps it newest first and adds exactly that row; the new first row is the inserted row or the old first row |
| Transactions.OrderNewestFirst | app/api/wallets/transactions/route.ts:27 | the result is ordered by creation time descending and is a permutation of the input |
| Transactions.Window | app/api/wallets/transactions/route.ts:28 | the window holds at most `limit` rows: exactly the rows at positions `offset`, `offset+1`, ... that exist |
| Transactions.ConsecutiveWindows | app/api/wallets/transactions/route.ts:28 | the page at `offset` of size `a`, followed by the page at `offset+a` of size `b`, is the page at `offset` of size `a+b` |
| Transactions.WindowsCoverAll | app/api/wallets/transactions/route.ts:28 | a window from the start and the window after it, long enough to reach the end, together are the whole sequence |
| Transactions.HistoryWindowRows | app/api/wallets/transactions/route.ts:26-28 | any window of a newest-first ordering of the user's rows is newest first and holds only table rows involving the user |
| Transactions.NewestFirstUnique | app/api/wallets/transactions/route.ts:27 | two newest-first sequences of the same rows, in which different rows never share a creation time, are equal |
| Transactions.HistoryOrderUnique | app/api/wallets/transactions/route.ts:26-27 | when no two of the user's rows share a creation time, every newest-first order the database may return is the model's order |
| Transactions.TiedRowsHaveTwoOrders | app/api/wallets/transactions/route.ts:27-28 | with two different rows created at the same instant, both orders are valid, and the first page of one and the second page of the other can show the same row |
| Transactions.Query | app/api/wallets/transactions/route.ts:19-28 | the query returns `WindowSize` rows (none past the end, else the lesser of `limit` and what remains after `offset`); it is the window at `offset` of some newest-first ordering of exactly the user's rows, so every row is a table row involving the user, dates descending |
| Transactions.ConsecutivePages | app/api/wallets/transactions/route.ts:27-28 | when no two of the user's rows share a creation time, the history page at `offset` of size `a`, followed by the page at `offset+a` of size `b`, is the page at `offset` of size `a+b` |
| Transactions.PagesCoverHistory | app/api/wallets/transactions/route.ts:26-28 | when no two of the user's rows share a creation time, a first page of any size and a page from there on as long as the table, each cut from any newest-first order the database chose for its own request, together are the whole history, newest first |
| Transactions.SeparateRequestsJoinUp | app/api/wallets/transactions/route.ts:26-28 | when no two of the user's rows share a creation time, pages from two separate requests join up into the spanning page, whatever newest-first order each request got |
| Transactions.FullFirstPage | app/api/wallets/transactions/route.ts:26-28 | a first page at least as long as the table is exactly the rows involving the user, newest first |
| Transactions.ListedWhenInvolved | app/api/wallets/transactions/route.ts:26 | every table row involving the user appears in a first page as long as the table |
| Transactions.TransferListedForBothParties | app/api/wallets/transactions/route.ts:26 | a transfer from X to Y is listed both in X's history and in Y's |
| Transactions.NameOrUser | app/api/wallets/transactions/route.ts:42-43 | the counterparty label is the joined first name when it is present and non-empty, and "User" otherwise |
| Transactions.Project | app/api/wallets/transactions/route.ts:35-46 | id, amount, date (= created_at), status and message are copied; the type is `purchase` iff the user sent a non-`gateway_qr` row, else `bu_transfer`; the description starts "Sent to " iff the user is the sender, naming the receiver, else "Received from " naming the sender |
| Transactions.ProjectAll | app/api/wallets/transactions/route.ts:35-46 | output length equals input length and each row is projected in place |
| Transactions.ListTransactions | app/api/wallets/transactions/route.ts:6-53 | no session gives 401; a query error gives 500; otherwise it succeeds with exactly `WindowSize` transactions for the limit (default 50) and offset (default 0), namely the projection of that window of some newest-first ordering of the user's rows; dates descend and `total` is the number returned |
| Transactions.HistorySymmetry | app/api/wallets/transactions/route.ts:37-43 | a non-`gateway_qr` transfer between two users is a `purchase` "Sent to" for the sender and a `bu_transfer` "Received from" for the receiver, with the same id and amount |
| Transactions.GatewayQrIsAlwaysTransfer | app/api/wallets/transactions/route.ts:37-38 | a `gateway_qr` row is `bu_transfer` for any viewer |
| Wallet.HistoryRequestIsDefaultPage | components/wallet.tsx:47 | the wallet's request (limit 50, offset 0) yields the same response as the endpoint's defaults |
| Wallet.Look | components/wallet.tsx:180-207 | the four independently decided parts agree: `+` iff down arrow, iff primary badge, iff primary amount, iff the type is topup/refund/bu_transfer; an outgoing row has the destructive badge and the foreground amount |
| Wallet.ShownSign | components/wallet.tsx:182-205 | composed with the projection: a row shows `-` exactly when the user sent it and it is not `gateway_qr`; received rows and `gateway_qr` rows show `+` |
| Wallet.SentGatewayQrShowsPlus | components/wallet.tsx:187-205 | a `gateway_qr` row the user sent shows `+` and the down arrow |
| Wallet.PeerTransferOppositeSigns | components/wallet.tsx:182-205 | sender and receiver of a transfer see opposite signs exactly when it is not `gateway_qr` |
| Wallet.BalanceAfterRead | components/wallet.tsx:41-44 | a wallet with no balance value shows 0; a failed read or missing wallet keeps the previous balance |
| Wallet.ShownBalanceIsLastLoaded | components/wallet.tsx:25-44 | after any run of wallet reads, the balance shown is that of the last read that returned a wallet (0 when its balance is missing), and the initial 0 when no read returned one |
| Wallet.NoneLoaded | components/wallet.tsx:25-44 | when no read returned a wallet, the balance shown is still the initial 0 |
| Wallet.AfterLastLoaded | components/wallet.tsx:25-44 | once a read returned a wallet and no later read did, the balance shown is that wallet's (0 when its balance is missing) |
| Wallet.DecideTopup | components/wallet.tsx:58-62 | a top-up request is made exactly when the typed text is non-empty and parses to a number > 0, and it asks for that amount; otherwise the refusal carries "Please enter a valid amount" |
| Profile.FirstLetters | components/profile.tsx:85-87 | one letter per non-empty word, in order: the k-th letter is the first character of the k-th non-empty word |
| Profile.NonEmptyWords | components/profile.tsx:85-87 | the kept words are all non-empty and no more than the words given |
| Profile.NonEmptyWordsMembers | components/profile.tsx:85-87 | a word is kept exactly when it is one of the words and is non-empty |
| Profile.Initials | components/profile.tsx:83-90 | the first two (or fewer, when there are fewer) non-empty space-separated words give the badge, the k-th character being the upper-cased first character of the k-th such word |
| Profile.InitialsOfDisplayName | components/profile.tsx:83-90 | the initials of "First Last" (two single words) are the two upper-cased first letters |
| Profile.HeaderInitials | components/profile.tsx:226 | the badge shows the initials of the loaded user's name, and "U" when no user is loaded; at most 2 characters |
| Profile.HeaderName | components/profile.tsx:230 | the header name is the user's name when one is loaded and non-empty, and "User" otherwise |
| Profile.HeaderAfterGetMe | components/profile.tsx:226-230 | after a successful read of the current user, the header shows the display name first + " " + last and the initials of that name |
| Profile.ProfileNameFallbackAgrees | components/profile.tsx:47 | the `first + " " + last` fallback produces the same name as the endpoint's own display name |
| Profile.FromView | components/profile.tsx:43-53 | the kept user has the endpoint's first and last names and its role string; its name is the endpoint's name when non-empty, else first + " " + last |
| Profile.RoleLabel | components/profile.tsx:233-241 | the label is never empty, and it is "User" for an absent or empty role |
| Profile.RoleLabels | components/profile.tsx:233-241 | user→Guest, celebrant→Celebrant, vendor→Vendor, both→"Guest + Celebrant + Vendor", and staff roles show as themselves |
| Profile.RoleLabelDistinguishesRoles | components/profile.tsx:233-241 | two roles get the same label exactly when they are the same role |
| Profile.VendorSectionExclusive | components/profile.tsx:368-391 | with user data, exactly one of "Become a Vendor" / "Vendor Access Enabled" shows; without it, neither |
| Profile.VendorSectionForRole | components/profile.tsx:391 | "Vendor Access Enabled" shows exactly for `vendor` and `both` |
| Profile.Prefill | components/profile.tsx:92-101 | non-empty stored names are used as they are and the email is carried over; without a stored first name the field is the name's first space-separated word (the whole name when it has no space); without a stored last name the field is empty for a one-word name and otherwise everything after the first space |
| Profile.PrefillRoundTrip | components/profile.tsx:95-96 | without stored names, when the name contains a space, first + " " + last reproduces the name exactly |
| Profile.PrefillFromDisplayName | components/profile.tsx:95-96 | without stored names, a display name whose first part has no space splits back into exactly its first and last name |
| Profile.OneWordNameBlocksSave | components/profile.tsx:415 | without stored names, a one-word name prefills an empty last name, so Save is disabled |
| Profile.SaveAccepted | components/profile.tsx:103-112 | a save the form allows is never refused as empty: the endpoint returns the two names and their display name |
| Profile.RegisterAsVendor | components/profile.tsx:147-175 | the button is offered exactly to roles without vendor access; for `user`/`celebrant` it succeeds and vendor access then shows; for staff it is refused with 400 "No fields to update" |

## Left out

- The Supabase client and its configuration, the diagnostic and test endpoints, and the HTTP header configuration are excluded: they are I/O or static configuration.
- SQL is not modelled. Each query is an input sequence of rows, and each store failure is an input message. Only the filter, order and window the history query states are modelled.
- Transactions.OrderNewestFirst: keeps table order among rows created at the same instant. The database leaves their order unspecified. Each single request's properties (newest first, exactly the user's rows, the window) hold for every order the database may choose.
- Transactions.ConsecutivePages: holds only when no two of the user's rows share a creation time. With ties, separate requests may order the tied rows differently, so consecutive pages of the real endpoint can repeat one tied row and skip another (`Transactions.TiedRowsHaveTwoOrders`).
- Transactions.PagesCoverHistory: the same condition as above; with tied creation times, the two pages need not cover the history.
- Transactions.ListTransactions: `limit` and `offset` are natural numbers or absent. Negative or non-numeric query parameters (where `parseInt` gives a negative value or NaN) are not modelled.
- UsersMe.GetMe: takes the first row with the token's id, since the id is the table's primary key. The duplicate-row error of the id lookup is not modelled. The phone lookup's duplicate case is modelled: the session is treated as invalid.
- UsersMe.PutMe: the error of the role read before an upgrade (route.ts lines 89-93) is ignored by the code, which then treats the role as unknown; the model has no separate input for it, and a failed read behaves like a missing row.
- UsersMe.GetMe: the error of the fallback lookup by phone (route.ts lines 32-36) is ignored by the code; the model has no separate input for it, and a failed fallback behaves like one that found no single row.
- UsersMe.PutMe: a missing row at update time is answered with 500 "Failed to update user: ..." The store's own wording for that message is replaced by a fixed text.
- UsersMe.BuildUpdate: body fields are absent, `null` or strings. Numbers, booleans and objects in the name and email fields are not modelled. `upgrade_to_vendor` is modelled as "is the literal `true`".
- UsersMe.DisplayName: name columns are strings. A `null` column, which the template would render as "null", is not modelled.
- The catch-all 500 "Internal server error", raised when a handler throws (for example, on a malformed JSON body), is not modelled.
- Strings.Upper: upper-cases ASCII letters only. Unicode case mappings, including ones that change length ("ß" to "SS"), are not modelled. Characters stand for UTF-16 code units.
- Wallet.DecideTopup: the text-to-number conversion (`Number`) is an input (None for NaN). Floating point and JavaScript number parsing are not modelled; amounts are exact reals.
- Wallet.BalanceAfterRead: `parseFloat` of the balance is an input (None when the field is missing or falsy).
- Currency formatting (`toLocaleString`) and the CSS `capitalize` applied to the role label are presentation and are left out.
- React state and effects, `alert`, `confirm`, `localStorage`/`sessionStorage`, page reloads, and the telemetry POSTs in the guard are left out as UI side effects. The guard is modelled only for a signed-in user after mount, the only time it runs.
- Modes and roles are closed variants. The policy's final `return false`, for a mode outside the three, cannot be reached in the model.
- Transfer execution, balance arithmetic, locking and idempotency keys do not occur in the modelled files and are not modelled.

=== FILE: access.dfy ===
/**
 * The client's page-access policy: which page a signed-in account may see
 * in each mode, the mode chosen at sign-in, and the redirect guard that
 * runs whenever the page, the mode or the account changes.
 */
module Access {

  import opened Roles
  import opened Strings

  /** The three app modes: `user` (shown as Guest), `celebrant` and `vendor`. */
  datatype Mode = UserMode | CelebrantMode | VendorMode

  type Page = string

  const Dashboard: Page := "dashboard"

  /** Pages every account may open in every mode. */
  const CommonPages: seq<Page> := ["dashboard", "profile", "notifications"]

  /** Pages reserved for vendor mode, recognised by name alone. */
  const VendorPrefix: string := "vendor-"

  /** The Guest-mode whitelist (twelve pages). */
  const GuestModePages: seq<Page> :=
    ["wallet", "spraying", "redemption", "buy-bu", "history", "invites", "events",
     "event-info", "send-bu", "receive-bu", "contacts", "paystack-payment"]

  /** The Celebrant-mode whitelist (six pages). */
  const CelebrantModePages: seq<Page> :=
    ["wallet", "redemption", "history", "celebrant-event-info", "celebrant-create-event",
     "celebrant-send-invites"]

  /** The Vendor-mode whitelist. Its `vendor-` entries are decided by the prefix rule first. */
  const VendorModePages: seq<Page> := ["wallet", "spraying", "vendor-gateway-setup", "vendor-buyback"]

  /** Whether an account with `role`, in `mode`, may open `page`. */
  predicate CanAccessPage(role: Role, mode: Mode, page: Page) {
    if page in CommonPages then true
    else if StartsWith(page, VendorPrefix) then HasVendorAccess(role) && mode == VendorMode
    else
      match mode
      case UserMode => HasGuestAccess(role) && page in GuestModePages
      case CelebrantMode => HasGuestAccess(role) && page in CelebrantModePages
      case VendorMode => HasVendorAccess(role) && page in VendorModePages
  }

  /** The mode an account starts in after signing in. */
  function InitialMode(role: Role): (m: Mode)
    ensures m == VendorMode <==> HasVendorAccess(role)
    ensures m == UserMode <==> !HasVendorAccess(role)
  {
    if role == Vendor || role == Both then VendorMode else UserMode
  }

  /** What the client shows: the active mode and the current page. */
  datatype View = View(mode: Mode, page: Page)

  /** Vendor mode held by an account that is not registered as a vendor. */
  predicate IllegalVendorMode(role: Role, v: View) {
    v.mode == VendorMode && role != Vendor && role != Both
  }

  /**
   * One run of the redirect guard for a signed-in account: an illegal
   * vendor mode falls back to Guest mode on the dashboard; otherwise a page
   * the account may not open is replaced by the dashboard.
   */
  function GuardStep(role: Role, v: View): (w: View)
    ensures CanAccessPage(role, w.mode, w.page)
    ensures !IllegalVendorMode(role, w)
    ensures w == v || w.page == Dashboard
    ensures IllegalVendorMode(role, v) ==> w == View(UserMode, Dashboard)
    ensures w.mode != v.mode ==> IllegalVendorMode(role, v)
  {
    if IllegalVendorMode(role, v) then View(UserMode, Dashboard)
    else if !CanAccessPage(role, v.mode, v.page) then View(v.mode, Dashboard)
    else v
  }

  /** The guard leaves a view alone exactly when it is legal and its page may be opened. */
  lemma GuardFixedPoints(role: Role, v: View)
    ensures GuardStep(role, v) == v <==> !IllegalVendorMode(role, v) && CanAccessPage(role, v.mode, v.page)
  {
  }

  /** A second run of the guard changes nothing. */
  lemma GuardIdempotent(role: Role, v: View)
    ensures GuardStep(role, GuardStep(role, v)) == GuardStep(role, v)
  {
  }

  /** The view set at sign-in (initial mode, dashboard) is left alone by the guard. */
  lemma SignInViewIsStable(role: Role)
    ensures GuardStep(role, View(InitialMode(role), Dashboard)) == View(InitialMode(role), Dashboard)
  {
  }

  /** Dashboard, profile and notifications are open to every role in every mode. */
  lemma CommonPagesAlwaysOpen(role: Role, mode: Mode, page: Page)
    requires page in CommonPages
    ensures CanAccessPage(role, mode, page)
  {
  }

  /** No whitelisted page outside vendor mode, and no common page, carries the vendor prefix. */
  lemma NoVendorPrefixOutsideVendorPages(page: Page)
    requires page in CommonPages || page in GuestModePages || page in CelebrantModePages
    ensures !StartsWith(page, VendorPrefix)
  {
    assert page[0] != 'v';
    if |VendorPrefix| <= |page| {
      assert page[..|VendorPrefix|][0] != VendorPrefix[0];
    }
  }

  /**
   * A `vendor-` page opens exactly for a vendor account in vendor mode,
   * whether or not the vendor whitelist names it.
   */
  lemma VendorPrefixedPages(role: Role, mode: Mode, page: Page)
    requires StartsWith(page, VendorPrefix)
    ensures CanAccessPage(role, mode, page) <==> HasVendorAccess(role) && mode == VendorMode
  {
    if page in CommonPages {
      NoVendorPrefixOutsideVendorPages(page);
    }
  }

  /** `vendor-create-event`, absent from the vendor whitelist, still opens for vendors in vendor mode. */
  lemma VendorCreateEventAccess(role: Role, mode: Mode)
    ensures "vendor-create-event" !in VendorModePages
    ensures CanAccessPage(role, mode, "vendor-create-event") <==> HasVendorAccess(role) && mode == VendorMode
  {
  }

  /**
   * Guest mode: `user`, `celebrant` and `both` see exactly the common pages
   * and the twelve-page whitelist; every other role sees only the common pages.
   */
  lemma GuestModeAccess(role: Role, page: Page)
    ensures HasGuestAccess(role) ==>
      (CanAccessPage(role, UserMode, page) <==> page in CommonPages || page in GuestModePages)
    ensures !HasGuestAccess(role) ==> (CanAccessPage(role, UserMode, page) <==> page in CommonPages)
  {
    if page in GuestModePages {
      NoVendorPrefixOutsideVendorPages(page);
    }
  }

  /**
   * Celebrant mode: `user`, `celebrant` and `both` see exactly the common
   * pages and the six-page whitelist; every other role sees only the common pages.
   */
  lemma CelebrantModeAccess(role: Role, page: Page)
    ensures HasGuestAccess(role) ==>
      (CanAccessPage(role, CelebrantMode, page) <==> page in CommonPages || page in CelebrantModePages)
    ensures !HasGuestAccess(role) ==> (CanAccessPage(role, CelebrantMode, page) <==> page in CommonPages)
  {
    if page in CelebrantModePages {
      NoVendorPrefixOutsideVendorPages(page);
    }
  }

  /**
   * Vendor mode: vendor accounts see the common pages, `wallet`, `spraying`
   * and every `vendor-` page; other roles see only the common pages.
   */
  lemma VendorModeAccess(role: Role, page: Page)
    ensures HasVendorAccess(role) ==>
      (CanAccessPage(role, VendorMode, page) <==>
         page in CommonPages || page == "wallet" || page == "spraying" || StartsWith(page, VendorPrefix))
    ensures !HasVendorAccess(role) ==> (CanAccessPage(role, VendorMode, page) <==> page in CommonPages)
  {
  }

  /** Admin and superadmin accounts may open only the common pages, in every mode. */
  lemma StaffAccess(role: Role, mode: Mode, page: Page)
    requires IsStaff(role)
    ensures CanAccessPage(role, mode, page) <==> page in CommonPages
  {
    RoleClasses(role);
  }
}

=== FILE: api.dfy ===
/**
 * What every route handler shares: the identity the authentication layer
 * supplies and the success/error envelope a handler returns.
 */
module Api {

  import opened Roles

  /** The verified caller, as decoded from the session token. */
  datatype AuthUser = AuthUser(userId: string, phoneNumber: string, role: Role)

  /** An error response: HTTP status and message. */
  datatype ApiError = ApiError(status: nat, message: string)

  /** The envelope built by the handlers' success and error helpers. */
  datatype Response<+T> = Success(data: T) | Failure(error: ApiError)

  const AuthenticationRequired := ApiError(401, "Authentication required")
}

=== FILE: profile.dfy ===
/**
 * The profile screen: the initials badge and header, the role label, the
 * vendor section, and the edit form (its prefill, when Save is enabled,
 * and the requests it sends to the current-user endpoint).
 */
module Profile {

  import opened Wrappers
  import opened Strings
  import opened Roles
  import opened Api
  import opened UsersMe

  /** The screen's copy of the user; `role` is the role string, None when unknown. */
  datatype UserData = UserData(
    name: string,
    firstName: Option<string>,
    lastName: Option<string>,
    phoneNumber: string,
    email: string,
    role: Option<string>)

  /** The non-empty words, in order. */
  function NonEmptyWords(words: seq<string>): (r: seq<string>)
    ensures |r| <= |words|
    ensures forall k :: 0 <= k < |r| ==> r[k] != ""
  {
    if |words| == 0 then []
    else if words[0] == "" then NonEmptyWords(words[1..])
    else [words[0]] + NonEmptyWords(words[1..])
  }

  /** The filter keeps exactly the non-empty words. */
  lemma {:induction false} NonEmptyWordsMembers(words: seq<string>)
    ensures forall w :: w in NonEmptyWords(words) <==> w in words && w != ""
  {
    if |words| > 0 {
      NonEmptyWordsMembers(words[1..]);
      assert words == [words[0]] + words[1..];
    }
  }

  /** The first character of each word, skipping empty words (they contribute nothing to the join). */
  function FirstLetters(words: seq<string>): (r: string)
    ensures |r| == |NonEmptyWords(words)|
    ensures forall k :: 0 <= k < |r| ==> r[k] == NonEmptyWords(words)[k][0]
  {
    if |words| == 0 then ""
    else if words[0] == "" then FirstLetters(words[1..])
    else
      var rest := FirstLetters(words[1..]);
      var tail := NonEmptyWords(words[1..]);
      var r := [words[0][0]] + rest;
      assert NonEmptyWords(words) == [words[0]] + tail;
      forall k | 1 <= k < |r|
        ensures r[k] == ([words[0]] + tail)[k][0]
      {
        assert r[k] == rest[k - 1];
        assert ([words[0]] + tail)[k] == tail[k - 1];
      }
      r
  }

  /** `c` is the upper-cased first letter of one of the words. */
  predicate IsInitialOf(c: char, words: seq<string>) {
    exists i :: 0 <= i < |words| && words[i] != "" && c == UpperChar(words[i][0])
  }

  /**
   * The initials badge: the upper-cased first letters of the first two
   * non-empty space-separated words.
   */
  function Initials(name: string): (r: string)
    ensures var ne := NonEmptyWords(Split(name, ' '));
      |r| == (if |ne| < 2 then |ne| else 2)
      && forall k :: 0 <= k < |r| ==> r[k] == UpperChar(ne[k][0])
    ensures forall k :: 0 <= k < |r| ==> NotLowerAscii(r[k])
    ensures forall k :: 0 <= k < |r| ==> IsInitialOf(r[k], Split(name, ' '))
  {
    var words := Split(name, ' ');
    var ne := NonEmptyWords(words);
    var letters := FirstLetters(words);
    var upper := Upper(letters);
    NonEmptyWordsMembers(words);
    forall k | 0 <= k < |upper|
      ensures NotLowerAscii(upper[k])
      ensures IsInitialOf(upper[k], words)
    {
      UpperCharIsUpper(letters[k]);
      assert ne[k] in ne;
      var i :| 0 <= i < |words| && words[i] == ne[k];
      assert upper[k] == UpperChar(words[i][0]);
    }
    if |upper| <= 2 then upper else upper[..2]
  }

  /** The initials of a two-word display name are the upper-cased first letters of the two names. */
  lemma InitialsOfDisplayName(first: string, last: string)
    requires first != "" && last != ""
    requires ' ' !in first && ' ' !in last
    ensures Initials(DisplayName(first, last)) == [UpperChar(first[0]), UpperChar(last[0])]
  {
    SplitJoin([first, last], ' ');
    assert Join([first, last], ' ') == DisplayName(first, last);
    assert [first, last][1..] == [last];
    assert FirstLetters([first, last]) == [first[0], last[0]];
  }

  /** The initials shown in the header: "U" when no user data is loaded. */
  function HeaderInitials(ud: Option<UserData>): (r: string)
    ensures |r| <= 2
    ensures ud.None? ==> r == "U"
    ensures ud.Some? ==> r == Initials(ud.value.name)
  {
    match ud
    case Some(u) => Initials(u.name)
    case None => "U"
  }

  /** The header name: the user's name, or "User" when none is loaded or it is empty. */
  function HeaderName(ud: Option<UserData>): (r: string)
    ensures r != ""
    ensures ud.Some? && ud.value.name != "" ==> r == ud.value.name
    ensures ud.None? || ud.value.name == "" ==> r == "User"
  {
    TruthyOr(if ud.Some? then Some(ud.value.name) else None, "User")
  }

  /** The name the screen keeps: the endpoint's name, or the two names joined when it sends none. */
  function ProfileName(name: Option<string>, first: string, last: string): string {
    TruthyOr(name, first + " " + last)
  }

  /** The fallback agrees with the endpoint: its composed name and no name give the same result. */
  lemma ProfileNameFallbackAgrees(first: string, last: string)
    ensures ProfileName(Some(DisplayName(first, last)), first, last) == ProfileName(None, first, last)
    ensures ProfileName(None, first, last) == DisplayName(first, last)
  {
  }

  /** The user data the screen keeps from a user the endpoint returned. */
  function FromView(v: UserView): (u: UserData)
    ensures v.name != "" ==> u.name == v.name
    ensures v.name == "" ==> u.name == DisplayName(v.firstName, v.lastName)
    ensures u.firstName == Some(v.firstName) && u.lastName == Some(v.lastName)
    ensures u.role == Some(RoleName(v.role))
  {
    UserData(ProfileName(Some(v.name), v.firstName, v.lastName), Some(v.firstName), Some(v.lastName),
             v.phoneNumber, v.email.GetOr(""), Some(RoleName(v.role)))
  }

  /** The role line under the name. */
  function RoleLabel(role: Option<string>): (r: string)
    ensures r != ""
    ensures role.None? || role == Some("") ==> r == "User"
  {
    match role
    case None => "User"
    case Some(s) =>
      if s == "user" then "Guest"
      else if s == "both" then "Guest + Celebrant + Vendor"
      else if s == "vendor" then "Vendor"
      else if s == "celebrant" then "Celebrant"
      else if s != "" then s
      else "User"
  }

  /** The label for each role: Guest, Celebrant, Vendor, the combined label, or the staff role's own name. */
  lemma RoleLabels(r: Role)
    ensures RoleLabel(Some(RoleName(r))) ==
      match r
      case User => "Guest"
      case Celebrant => "Celebrant"
      case Vendor => "Vendor"
      case Both => "Guest + Celebrant + Vendor"
      case Admin => "admin"
      case SuperAdmin => "superadmin"
  {
  }

  /** Different roles get different labels, so the label tells the role. */
  lemma RoleLabelDistinguishesRoles(a: Role, b: Role)
    ensures RoleLabel(Some(RoleName(a))) == RoleLabel(Some(RoleName(b))) <==> a == b
  {
    RoleNameInjective(a, b);
    RoleLabels(a);
    RoleLabels(b);
  }

  /**
   * After a successful read of the current user, the header shows the
   * display name the endpoint composed and the initials of that name.
   */
  lemma HeaderAfterGetMe(auth: AuthUser, users: seq<UserRow>)
    requires GetMe(Some(auth), users, None).Success?
    ensures var v := GetMe(Some(auth), users, None).data;
      HeaderName(Some(FromView(v))) == DisplayName(v.firstName, v.lastName)
      && HeaderInitials(Some(FromView(v))) == Initials(DisplayName(v.firstName, v.lastName))
  {
    var v := GetMe(Some(auth), users, None).data;
    assert DisplayName(v.firstName, v.lastName) != "" by {
      assert |DisplayName(v.firstName, v.lastName)| >= 1;
    }
  }

  /** The "Become a Vendor" section is shown. */
  predicate ShowsBecomeVendor(ud: Option<UserData>) {
    ud.Some? && ud.value.role != Some("vendor") && ud.value.role != Some("both")
  }

  /** The "Vendor Access Enabled" section is shown. */
  predicate ShowsVendorEnabled(ud: Option<UserData>) {
    ud.Some? && (ud.value.role == Some("vendor") || ud.value.role == Some("both"))
  }

  /** With user data loaded exactly one vendor section shows; without it, neither. */
  lemma VendorSectionExclusive(ud: Option<UserData>)
    ensures ud.Some? ==> (ShowsBecomeVendor(ud) <==> !ShowsVendorEnabled(ud))
    ensures ud.None? ==> !ShowsBecomeVendor(ud) && !ShowsVendorEnabled(ud)
  {
  }

  /** For a known role, vendor access is shown exactly for `vendor` and `both`. */
  lemma VendorSectionForRole(u: UserData, r: Role)
    requires u.role == Some(RoleName(r))
    ensures ShowsVendorEnabled(Some(u)) <==> HasVendorAccess(r)
    ensures ShowsBecomeVendor(Some(u)) <==> !HasVendorAccess(r)
  {
    RoleNameInjective(r, Vendor);
    RoleNameInjective(r, Both);
  }

  /** The edit form's three fields. */
  datatype EditForm = EditForm(firstName: string, lastName: string, email: string)

  /**
   * The form as the Edit button fills it: stored names first; otherwise the
   * first word of the name, and the remaining words joined by spaces.
   */
  function Prefill(u: UserData): (f: EditForm)
    ensures u.firstName.Some? && u.firstName.value != "" ==> f.firstName == u.firstName.value
    ensures u.lastName.Some? && u.lastName.value != "" ==> f.lastName == u.lastName.value
    ensures f.email == u.email
    ensures u.firstName.None? || u.firstName == Some("") ==>
      ' ' !in f.firstName && (f.firstName == u.name || StartsWith(u.name, f.firstName + " "))
    ensures (u.lastName.None? || u.lastName == Some("")) && ' ' !in u.name ==> f.lastName == ""
    ensures (u.lastName.None? || u.lastName == Some("")) && ' ' in u.name ==>
      u.name == Split(u.name, ' ')[0] + " " + f.lastName
  {
    var words := Split(u.name, ' ');
    SplitFirst(u.name, ' ');
    EditForm(TruthyOr(u.firstName, words[0]), TruthyOr(u.lastName, Join(words[1..], ' ')), u.email)
  }

  /** Neither name is stored (absent or empty). */
  predicate NoStoredNames(u: UserData) {
    (u.firstName.None? || u.firstName == Some("")) && (u.lastName.None? || u.lastName == Some(""))
  }

  /** Without stored names, a name holding a space comes back whole from the two prefilled fields. */
  lemma {:induction false} PrefillRoundTrip(u: UserData)
    requires NoStoredNames(u)
    requires ' ' in u.name
    ensures Prefill(u).firstName + " " + Prefill(u).lastName == u.name
  {
    var words := Split(u.name, ' ');
    JoinSplit(u.name, ' ');
    assert Join(words, ' ') == words[0] + [' '] + Join(words[1..], ' ');
  }

  /** Without stored names, a display name whose first name has no space splits back into its two names. */
  lemma {:induction false} PrefillFromDisplayName(u: UserData, first: string, last: string)
    requires NoStoredNames(u)
    requires u.name == DisplayName(first, last)
    requires ' ' !in first
    ensures Prefill(u).firstName == first && Prefill(u).lastName == last
  {
    assert u.name == first + [' '] + last;
    SplitAfterWord(first, ' ', last);
    assert Split(u.name, ' ')[1..] == Split(last, ' ');
    JoinSplit(last, ' ');
  }

  /** Save is enabled when not already saving and both names are filled in. */
  predicate SaveEnabled(saving: bool, f: EditForm) {
    !(saving || f.firstName == "" || f.lastName == "")
  }

  /** Without stored names, a one-word name leaves the last name empty, so Save starts disabled. */
  lemma OneWordNameBlocksSave(u: UserData, saving: bool)
    requires NoStoredNames(u)
    requires ' ' !in u.name
    ensures Prefill(u).lastName == ""
    ensures !SaveEnabled(saving, Prefill(u))
  {
  }

  /** The body Save sends: both names, and the email only when filled in. */
  function SaveRequest(f: EditForm): UpdateBody {
    UpdateBody(Text(f.firstName), Text(f.lastName), if f.email == "" then Absent else Text(f.email), false)
  }

  /**
   * A save the form allows is never refused as empty: with the user's row
   * present and the store accepting, the endpoint returns the two names and
   * their display name.
   */
  lemma SaveAccepted(f: EditForm, saving: bool, auth: AuthUser, users: seq<UserRow>)
    requires SaveEnabled(saving, f)
    requires RoleOf(users, auth.userId).Some?
    ensures PutMe(Some(auth), SaveRequest(f), users, None).Success?
    ensures PutMe(Some(auth), SaveRequest(f), users, None).data.firstName == f.firstName
    ensures PutMe(Some(auth), SaveRequest(f), users, None).data.lastName == f.lastName
    ensures PutMe(Some(auth), SaveRequest(f), users, None).data.name == f.firstName + " " + f.lastName
  {
  }

  /**
   * The "Register as Vendor" button is offered to every role without vendor
   * access; pressed, it upgrades `user` and `celebrant` to `both` (after
   * which the screen shows vendor access), while for staff the request is
   * refused as an empty update.
   */
  lemma RegisterAsVendor(u: UserData, r: Role, auth: AuthUser, users: seq<UserRow>)
    requires u.role == Some(RoleName(r))
    requires RoleOf(users, auth.userId) == Some(r)
    ensures ShowsBecomeVendor(Some(u)) <==> !HasVendorAccess(r)
    ensures ShowsBecomeVendor(Some(u)) && IsStaff(r) ==>
      PutMe(Some(auth), UpgradeOnly, users, None) == Failure(NoFieldsToUpdate)
    ensures ShowsBecomeVendor(Some(u)) && !IsStaff(r) ==>
      PutMe(Some(auth), UpgradeOnly, users, None).Success?
      && ShowsVendorEnabled(Some(u.(role := Some(RoleName(PutMe(Some(auth), UpgradeOnly, users, None).data.role)))))
  {
  }
}

=== FILE: roles.dfy ===
/**
 * Account roles. The source keeps them as strings; here they are a closed
 * variant, with the string each one is stored and sent as.
 */
module Roles {

  /** `user` is shown as Guest; `both` is Guest + Celebrant + Vendor. */
  datatype Role = User | Celebrant | Vendor | Both | Admin | SuperAdmin

  /** The stored string for a role. */
  function RoleName(r: Role): string {
    match r
    case User => "user"
    case Celebrant => "celebrant"
    case Vendor => "vendor"
    case Both => "both"
    case Admin => "admin"
    case SuperAdmin => "superadmin"
  }

  /** Registered as a vendor: `vendor` or `both`. */
  predicate HasVendorAccess(r: Role) {
    r == Vendor || r == Both
  }

  /** The roles that may use Guest and Celebrant mode: `user`, `celebrant`, `both`. */
  predicate HasGuestAccess(r: Role) {
    r == User || r == Celebrant || r == Both
  }

  /** The staff roles. */
  predicate IsStaff(r: Role) {
    r == Admin || r == SuperAdmin
  }

  /** Distinct roles are stored as distinct strings, so a string names at most one role. */
  lemma RoleNameInjective(a: Role, b: Role)
    ensures RoleName(a) == RoleName(b) <==> a == b
  {
  }

  /** Every role is in exactly one of the classes a guest, a vendor-only account, or staff. */
  lemma RoleClasses(r: Role)
    ensures HasGuestAccess(r) || r == Vendor || IsStaff(r)
    ensures IsStaff(r) ==> !HasGuestAccess(r) && !HasVendorAccess(r)
    ensures HasGuestAccess(r) && HasVendorAccess(r) <==> r == Both
  {
  }
}

=== FILE: strings.dfy ===
/**
 * The few JavaScript string operations the modelled code relies on:
 * `startsWith`, `split` and `join` with a one-character separator, and
 * upper-casing.
 */
module Strings {

  import opened Wrappers

  /**
   * JavaScript's `value || fallback` for an optional string: the value when
   * it is present and non-empty (truthy), else the fallback.
   */
  function TruthyOr(value: Option<string>, fallback: string): (r: string)
    ensures value.Some? && value.value != "" ==> r == value.value
    ensures value.None? || value.value == "" ==> r == fallback
  {
    if value.Some? && value.value != "" then value.value else fallback
  }

  /** `s.startsWith(prefix)`. */
  predicate StartsWith(s: string, prefix: string) {
    |prefix| <= |s| && s[..|prefix|] == prefix
  }

  /**
   * `s.split(sep)` for a one-character separator: the maximal runs between
   * separators, in order, empty runs included. There is always at least one
   * part, no part holds the separator, and there is more than one part
   * exactly when the separator occurs.
   */
  function Split(s: string, sep: char): (parts: seq<string>)
    ensures |parts| >= 1
    ensures forall i :: 0 <= i < |parts| ==> sep !in parts[i]
    ensures |parts| == 1 <==> sep !in s
    decreases |s|
  {
    if |s| == 0 then [""]
    else
      var rest := Split(s[1..], sep);
      assert s == [s[0]] + s[1..];
      if s[0] == sep then [""] + rest
      else [[s[0]] + rest[0]] + rest[1..]
  }

  /** `parts.join(sep)`: the parts with one separator between neighbours. */
  function Join(parts: seq<string>, sep: char): string {
    if |parts| == 0 then ""
    else if |parts| == 1 then parts[0]
    else parts[0] + [sep] + Join(parts[1..], sep)
  }

  /** Joining what `Split` cut reproduces the string. */
  lemma {:induction false} JoinSplit(s: string, sep: char)
    ensures Join(Split(s, sep), sep) == s
    decreases |s|
  {
    if |s| > 0 {
      var rest := Split(s[1..], sep);
      JoinSplit(s[1..], sep);
      assert Join(rest, sep) == s[1..];
      assert s == [s[0]] + s[1..];
      if s[0] == sep {
        var parts := [""] + rest;
        assert Split(s, sep) == parts;
        assert parts[1..] == rest;
        assert Join(parts, sep) == "" + [sep] + Join(rest, sep);
      } else if |rest| == 1 {
        assert Split(s, sep) == [[s[0]] + rest[0]];
        assert Join(rest, sep) == rest[0];
      } else {
        var parts := [[s[0]] + rest[0]] + rest[1..];
        assert Split(s, sep) == parts;
        assert parts[1..] == rest[1..];
        assert Join(parts, sep) == [s[0]] + rest[0] + [sep] + Join(rest[1..], sep);
        assert Join(rest, sep) == rest[0] + [sep] + Join(rest[1..], sep);
      }
    }
  }

  /** The first part of a split is the whole string, or what comes before the first separator. */
  lemma SplitFirst(s: string, sep: char)
    ensures sep !in s ==> Split(s, sep)[0] == s && Join(Split(s, sep)[1..], sep) == ""
    ensures sep in s ==> s == Split(s, sep)[0] + [sep] + Join(Split(s, sep)[1..], sep)
    ensures sep in s ==> StartsWith(s, Split(s, sep)[0] + [sep])
  {
    JoinSplit(s, sep);
    var parts := Split(s, sep);
    if sep in s {
      var w := parts[0] + [sep];
      assert s == w + Join(parts[1..], sep);
      assert s[..|w|] == w;
    }
  }

  /** A word without the separator is split into itself. */
  lemma {:induction false} SplitWord(w: string, sep: char)
    requires sep !in w
    ensures Split(w, sep) == [w]
    decreases |w|
  {
    if |w| > 0 {
      SplitWord(w[1..], sep);
      assert [w[0]] + w[1..] == w;
    }
  }

  /** A separator-free word followed by the separator is cut off whole. */
  lemma {:induction false} SplitAfterWord(w: string, sep: char, tail: string)
    requires sep !in w
    ensures Split(w + [sep] + tail, sep) == [w] + Split(tail, sep)
    decreases |w|
  {
    var s := w + [sep] + tail;
    if |w| == 0 {
      assert s == [sep] + tail;
      assert s[1..] == tail;
    } else {
      assert s[0] == w[0];
      assert s[1..] == w[1..] + [sep] + tail;
      SplitAfterWord(w[1..], sep, tail);
      assert [w[0]] + w[1..] == w;
    }
  }

  /** Splitting what `Join` glued gives back the parts, when no part holds the separator. */
  lemma {:induction false} SplitJoin(parts: seq<string>, sep: char)
    requires |parts| >= 1
    requires forall i :: 0 <= i < |parts| ==> sep !in parts[i]
    ensures Split(Join(parts, sep), sep) == parts
    decreases |parts|
  {
    if |parts| == 1 {
      SplitWord(parts[0], sep);
    } else {
      SplitJoin(parts[1..], sep);
      SplitAfterWord(parts[0], sep, Join(parts[1..], sep));
      assert [parts[0]] + parts[1..] == parts;
    }
  }

  /** Upper-casing of one character (the ASCII letters a to z). */
  function UpperChar(c: char): char {
    if 'a' <= c <= 'z' then (c as int - 32) as char else c
  }

  /** `s.toUpperCase()`, character by character. */
  function Upper(s: string): (r: string)
    ensures |r| == |s|
    ensures forall i :: 0 <= i < |s| ==> r[i] == UpperChar(s[i])
  {
    if |s| == 0 then "" else [UpperChar(s[0])] + Upper(s[1..])
  }

  /** Not an ASCII lower-case letter: a character that upper-casing leaves as it is (digits and spaces included). */
  predicate NotLowerAscii(c: char) {
    !('a' <= c <= 'z')
  }

  /** Upper-casing leaves no lower-case letter behind. */
  lemma UpperCharIsUpper(c: char)
    ensures NotLowerAscii(UpperChar(c))
  {
  }
}

=== FILE: transactions.dfy ===
/**
 * The wallet-history endpoint: the signed-in user's transfers, newest
 * first, one page of them, each projected to a transaction as seen from
 * that user's side.
 */
module Transactions {

  import opened Wrappers
  import opened Api
  import opened Strings

  /**
   * A transfers row with the first names of its two parties joined in.
   * A party id is None when that side is the payment gateway; a joined
   * first name is None when the join found no user or the column is null.
   */
  datatype TransferRow = TransferRow(
    id: string,
    senderId: Option<string>,
    receiverId: Option<string>,
    kind: string,
    amount: real,
    createdAt: int,
    status: string,
    message: Option<string>,
    senderFirstName: Option<string>,
    receiverFirstName: Option<string>)

  /** The transfer kind that is always shown as incoming. */
  const GatewayQr := "gateway_qr"

  /** The transaction types the wallet screen knows. */
  datatype TxType = Topup | Purchase | Withdrawal | Refund | BuTransfer

  /** One transaction as the endpoint returns it. */
  datatype Transaction = Transaction(
    id: string,
    txType: TxType,
    amount: real,
    date: int,
    description: string,
    status: string,
    message: Option<string>)

  /** The page the endpoint returns; `total` counts this page only. */
  datatype TransactionsPage = TransactionsPage(transactions: seq<Transaction>, total: nat)

  const DefaultLimit: nat := 50
  const DefaultOffset: nat := 0

  /** The user is the row's sender or its receiver. */
  predicate Involves(t: TransferRow, userId: string) {
    t.senderId == Some(userId) || t.receiverId == Some(userId)
  }

  /** The rows involving the user, each kept as often as the table holds it. */
  function Involving(rows: seq<TransferRow>, userId: string): (r: seq<TransferRow>)
    ensures |r| <= |rows|
    ensures forall i :: 0 <= i < |r| ==> Involves(r[i], userId)
    ensures forall x :: multiset(r)[x] == if Involves(x, userId) then multiset(rows)[x] else 0
  {
    if |rows| == 0 then []
    else
      assert rows == [rows[0]] + rows[1..];
      var rest := Involving(rows[1..], userId);
      if Involves(rows[0], userId) then [rows[0]] + rest else rest
  }

  /** Ordered by creation time, newest first. */
  predicate NewestFirst(s: seq<TransferRow>) {
    forall i, j :: 0 <= i < j < |s| ==> s[i].createdAt >= s[j].createdAt
  }

  /** Places `x` into a newest-first sequence, ahead of rows no newer than it. */
  function InsertByDate(x: TransferRow, s: seq<TransferRow>): (r: seq<TransferRow>)
    requires NewestFirst(s)
    ensures NewestFirst(r)
    ensures multiset(r) == multiset(s) + multiset{x}
    ensures |r| == |s| + 1
    ensures |s| > 0 ==> r[0] == x || r[0] == s[0]
  {
    if |s| == 0 then [x]
    else if s[0].createdAt <= x.createdAt then [x] + s
    else
      var t := InsertByDate(x, s[1..]);
      assert s == [s[0]] + s[1..];
      assert t[0].createdAt <= s[0].createdAt;
      [s[0]] + t
  }

  /** The rows ordered newest first (rows created at the same time keep table order). */
  function OrderNewestFirst(s: seq<TransferRow>): (r: seq<TransferRow>)
    ensures NewestFirst(r)
    ensures multiset(r) == multiset(s)
    ensures |r| == |s|
  {
    if |s| == 0 then []
    else
      assert s == [s[0]] + s[1..];
      InsertByDate(s[0], OrderNewestFirst(s[1..]))
  }

  function Min(a: nat, b: nat): nat {
    if a <= b then a else b
  }

  /** How many of `n` rows a window from `offset`, at most `limit` long, holds. */
  function WindowSize(n: nat, offset: nat, limit: nat): nat {
    if offset >= n then 0 else Min(limit, n - offset)
  }

  /** The rows at positions offset .. offset + limit - 1, as far as they exist. */
  function Window<T>(s: seq<T>, offset: nat, limit: nat): (r: seq<T>)
    ensures |r| <= limit
    ensures |r| == WindowSize(|s|, offset, limit)
    ensures forall i :: 0 <= i < |r| ==> offset + i < |s| && r[i] == s[offset + i]
  {
    if offset >= |s| then [] else s[offset..offset + Min(limit, |s| - offset)]
  }

  /** Two neighbouring pages together are the page that spans both. */
  lemma ConsecutiveWindows<T>(s: seq<T>, offset: nat, a: nat, b: nat)
    ensures Window(s, offset, a) + Window(s, offset + a, b) == Window(s, offset, a + b)
  {
  }

  /** A first window and the one after it, long enough to reach the end, together are the whole sequence. */
  lemma WindowsCoverAll<T>(s: seq<T>, a: nat, n: nat)
    requires |s| <= n
    ensures Window(s, 0, a) + Window(s, a, n) == s
  {
    ConsecutiveWindows(s, 0, a, n);
    assert Window(s, 0, a + n) == s;
  }

  /** `sorted` is the user's rows in one newest-first order the database may return them in. */
  predicate IsHistoryOrder(sorted: seq<TransferRow>, rows: seq<TransferRow>, userId: string) {
    NewestFirst(sorted) && multiset(sorted) == multiset(Involving(rows, userId))
  }

  /** A window of the history keeps its order, and each of its rows is a table row involving the user. */
  lemma HistoryWindowRows(rows: seq<TransferRow>, userId: string, sorted: seq<TransferRow>, offset: nat, limit: nat)
    requires IsHistoryOrder(sorted, rows, userId)
    ensures NewestFirst(Window(sorted, offset, limit))
    ensures forall i :: 0 <= i < |Window(sorted, offset, limit)| ==>
      Window(sorted, offset, limit)[i] in rows && Involves(Window(sorted, offset, limit)[i], userId)
  {
    var w := Window(sorted, offset, limit);
    forall i | 0 <= i < |w|
      ensures w[i] in rows && Involves(w[i], userId)
    {
      assert w[i] == sorted[offset + i];
      assert w[i] in multiset(sorted);
    }
    forall i, j | 0 <= i < j < |w|
      ensures w[i].createdAt >= w[j].createdAt
    {
      assert w[i] == sorted[offset + i] && w[j] == sorted[offset + j];
    }
  }

  /** The query: the user's rows, newest first, then the requested window. */
  function Query(rows: seq<TransferRow>, userId: string, offset: nat, limit: nat): (r: seq<TransferRow>)
    ensures |r| <= limit
    ensures |r| == WindowSize(|Involving(rows, userId)|, offset, limit)
    ensures exists sorted :: IsHistoryOrder(sorted, rows, userId) && r == Window(sorted, offset, limit)
    ensures NewestFirst(r)
    ensures forall i :: 0 <= i < |r| ==> r[i] in rows && Involves(r[i], userId)
  {
    var sorted := OrderNewestFirst(Involving(rows, userId));
    HistoryWindowRows(rows, userId, sorted, offset, limit);
    Window(sorted, offset, limit)
  }

  /** No two different rows of `s` were created at the same instant. */
  predicate UniqueTimes(s: seq<TransferRow>) {
    forall i, j :: 0 <= i < |s| && 0 <= j < |s| && s[i] != s[j] ==> s[i].createdAt != s[j].createdAt
  }

  /** Two newest-first sequences of the same rows, no two created at the same instant, are equal. */
  lemma {:induction false} NewestFirstUnique(a: seq<TransferRow>, b: seq<TransferRow>)
    requires NewestFirst(a) && NewestFirst(b)
    requires multiset(a) == multiset(b)
    requires UniqueTimes(a)
    ensures a == b
  {
    if |a| == 0 {
      assert |b| == |multiset(b)| == 0;
    } else {
      assert |b| == |multiset(b)| == |multiset(a)| == |a|;
      SameHead(a, b);
      assert a == [a[0]] + a[1..] && b == [b[0]] + b[1..];
      assert multiset(a[1..]) == multiset(a) - multiset{a[0]};
      assert multiset(b[1..]) == multiset(b) - multiset{b[0]};
      TailKeepsOrder(a);
      TailKeepsOrder(b);
      NewestFirstUnique(a[1..], b[1..]);
    }
  }

  /** Dropping the first row keeps a sequence newest first and keeps its creation times distinct. */
  lemma TailKeepsOrder(a: seq<TransferRow>)
    requires |a| > 0 && NewestFirst(a)
    ensures NewestFirst(a[1..])
    ensures UniqueTimes(a) ==> UniqueTimes(a[1..])
  {
    forall i, j | 0 <= i < |a| - 1 && 0 <= j < |a| - 1
      ensures a[1..][i] == a[i + 1] && a[1..][j] == a[j + 1]
    {
    }
  }

  /** Two non-empty newest-first sequences of the same rows, no two created at the same instant, start alike. */
  lemma SameHead(a: seq<TransferRow>, b: seq<TransferRow>)
    requires NewestFirst(a) && NewestFirst(b)
    requires multiset(a) == multiset(b)
    requires UniqueTimes(a)
    requires |a| > 0 && |b| > 0
    ensures a[0] == b[0]
  {
    assert a[0] in multiset(b) && b[0] in multiset(a);
    var k :| 0 <= k < |b| && b[k] == a[0];
    var m :| 0 <= m < |a| && a[m] == b[0];
    assert b[0].createdAt >= b[k].createdAt;
    assert a[0].createdAt >= a[m].createdAt;
    assert a[0].createdAt == a[m].createdAt;
  }

  /**
   * When no two of the user's rows share a creation time, every newest-first
   * order the database may return is the model's order: pages from different
   * requests then cut one and the same sequence.
   */
  lemma HistoryOrderUnique(rows: seq<TransferRow>, userId: string, sorted: seq<TransferRow>)
    requires UniqueTimes(Involving(rows, userId))
    requires IsHistoryOrder(sorted, rows, userId)
    ensures sorted == OrderNewestFirst(Involving(rows, userId))
  {
    var inv := Involving(rows, userId);
    var mine := OrderNewestFirst(inv);
    forall i, j | 0 <= i < |sorted| && 0 <= j < |sorted| && sorted[i] != sorted[j]
      ensures sorted[i].createdAt != sorted[j].createdAt
    {
      assert sorted[i] in multiset(inv) && sorted[j] in multiset(inv);
      var p :| 0 <= p < |inv| && inv[p] == sorted[i];
      var q :| 0 <= q < |inv| && inv[q] == sorted[j];
    }
    NewestFirstUnique(sorted, mine);
  }

  /**
   * Two neighbouring pages of the history together are the page that spans
   * both. Requests are separate queries, so this needs the order to be the
   * same for each: it is, when no two of the user's rows share a creation time.
   */
  lemma ConsecutivePages(rows: seq<TransferRow>, userId: string, offset: nat, a: nat, b: nat)
    requires UniqueTimes(Involving(rows, userId))
    ensures Query(rows, userId, offset, a) + Query(rows, userId, offset + a, b) == Query(rows, userId, offset, a + b)
  {
    ConsecutiveWindows(OrderNewestFirst(Involving(rows, userId)), offset, a, b);
  }

  /**
   * Pages from two separate requests, each cut from whatever newest-first
   * order the database chose for it, join up without a gap or a repeat when
   * no two of the user's rows share a creation time.
   */
  lemma SeparateRequestsJoinUp(rows: seq<TransferRow>, userId: string, first: seq<TransferRow>, second: seq<TransferRow>,
                               offset: nat, a: nat, b: nat)
    requires UniqueTimes(Involving(rows, userId))
    requires IsHistoryOrder(first, rows, userId) && IsHistoryOrder(second, rows, userId)
    ensures Window(first, offset, a) + Window(second, offset + a, b) == Query(rows, userId, offset, a + b)
  {
    HistoryOrderUnique(rows, userId, first);
    HistoryOrderUnique(rows, userId, second);
    ConsecutiveWindows(first, offset, a, b);
  }

  /**
   * With two rows created at the same instant the database may return
   * either order, so two requests can each show the same one of them first.
   */
  lemma TiedRowsHaveTwoOrders(x: TransferRow, y: TransferRow, userId: string)
    requires x != y && x.createdAt == y.createdAt
    requires Involves(x, userId) && Involves(y, userId)
    ensures IsHistoryOrder([x, y], [x, y], userId) && IsHistoryOrder([y, x], [x, y], userId)
    ensures Window([x, y], 0, 1) == Window([y, x], 1, 1) == [x]
  {
    assert [x, y][1..] == [y];
    assert Involving([y], userId) == [y];
    assert Involving([x, y], userId) == [x, y];
    assert multiset([y, x]) == multiset([x, y]);
  }

  /**
   * A first page of any size and the page after it, long enough to reach the
   * end, each from its own request, together are the whole history, newest
   * first, when no two of the user's rows share a creation time.
   */
  lemma PagesCoverHistory(rows: seq<TransferRow>, userId: string, first: seq<TransferRow>, second: seq<TransferRow>, a: nat)
    requires UniqueTimes(Involving(rows, userId))
    requires IsHistoryOrder(first, rows, userId) && IsHistoryOrder(second, rows, userId)
    ensures Window(first, 0, a) + Window(second, a, |rows|) == OrderNewestFirst(Involving(rows, userId))
  {
    var sorted := OrderNewestFirst(Involving(rows, userId));
    HistoryOrderUnique(rows, userId, first);
    HistoryOrderUnique(rows, userId, second);
    WindowsCoverAll(sorted, a, |rows|);
  }

  /** A first page at least as long as the table is every row involving the user, newest first. */
  lemma FullFirstPage(rows: seq<TransferRow>, userId: string, limit: nat)
    requires limit >= |rows|
    ensures Query(rows, userId, 0, limit) == OrderNewestFirst(Involving(rows, userId))
  {
    var inv := Involving(rows, userId);
    var sorted := OrderNewestFirst(inv);
    assert |sorted| == |multiset(sorted)| == |multiset(inv)| == |inv| <= |rows|;
    assert Window(sorted, 0, limit) == sorted;
  }

  /** A transfer between two users is listed for each of them. */
  lemma TransferListedForBothParties(rows: seq<TransferRow>, t: TransferRow, x: string, y: string)
    requires t in rows
    requires t.senderId == Some(x) && t.receiverId == Some(y)
    ensures t in Query(rows, x, 0, |rows|)
    ensures t in Query(rows, y, 0, |rows|)
  {
    ListedWhenInvolved(rows, t, x);
    ListedWhenInvolved(rows, t, y);
  }

  /** A table row involving the user is in the history's first page as long as the table. */
  lemma ListedWhenInvolved(rows: seq<TransferRow>, t: TransferRow, userId: string)
    requires t in rows && Involves(t, userId)
    ensures t in Query(rows, userId, 0, |rows|)
  {
    FullFirstPage(rows, userId, |rows|);
    assert multiset(Involving(rows, userId))[t] == multiset(rows)[t] > 0;
    assert t in multiset(OrderNewestFirst(Involving(rows, userId)));
  }

  /** A joined first name, or "User" when it is missing or empty. */
  function NameOrUser(n: Option<string>): (r: string)
    ensures r != ""
    ensures n.None? || n.value == "" ==> r == "User"
    ensures n.Some? && n.value != "" ==> r == n.value
  {
    TruthyOr(n, "User")
  }

  const SentPrefix := "Sent to "
  const ReceivedPrefix := "Received from "

  /** One row as the user sees it. */
  function Project(userId: string, t: TransferRow): (r: Transaction)
    ensures r.id == t.id && r.amount == t.amount && r.date == t.createdAt
    ensures r.status == t.status && r.message == t.message
    ensures r.txType == Purchase || r.txType == BuTransfer
    ensures r.txType == Purchase <==> t.kind != GatewayQr && t.senderId == Some(userId)
    ensures StartsWith(r.description, SentPrefix) <==> t.senderId == Some(userId)
    ensures t.senderId == Some(userId) ==> r.description == SentPrefix + NameOrUser(t.receiverFirstName)
    ensures t.senderId != Some(userId) ==> r.description == ReceivedPrefix + NameOrUser(t.senderFirstName)
  {
    var sent := t.senderId == Some(userId);
    var description :=
      if sent then SentPrefix + NameOrUser(t.receiverFirstName)
      else ReceivedPrefix + NameOrUser(t.senderFirstName);
    assert StartsWith(description, SentPrefix) <==> sent by {
      if !sent {
        assert description[0] == 'R';
      }
    }
    Transaction(
      t.id,
      if t.kind == GatewayQr then BuTransfer else if sent then Purchase else BuTransfer,
      t.amount,
      t.createdAt,
      description,
      t.status,
      t.message)
  }

  /** Every row of a page, projected for the user. */
  function ProjectAll(userId: string, rows: seq<TransferRow>): (r: seq<Transaction>)
    ensures |r| == |rows|
    ensures forall i :: 0 <= i < |r| ==> r[i] == Project(userId, rows[i])
  {
    seq(|rows|, i requires 0 <= i < |rows| => Project(userId, rows[i]))
  }

  /**
   * GET: authenticate, read the page the limit and offset parameters ask
   * for (50 and 0 when absent), and return it projected for the user.
   */
  function ListTransactions(
    auth: Option<AuthUser>, rows: seq<TransferRow>,
    limit: Option<nat>, offset: Option<nat>, queryError: Option<string>): (r: Response<TransactionsPage>)
    ensures auth.None? ==> r == Failure(AuthenticationRequired)
    ensures auth.Some? && queryError.Some? ==>
      r == Failure(ApiError(500, "Failed to fetch transactions: " + queryError.value))
    ensures auth.Some? && queryError.None? ==> r.Success?
    ensures r.Success? ==> r.data.total == |r.data.transactions|
    ensures r.Success? ==> |r.data.transactions| <= limit.GetOr(DefaultLimit)
    ensures r.Success? ==>
      |r.data.transactions|
      == WindowSize(|Involving(rows, auth.value.userId)|, offset.GetOr(DefaultOffset), limit.GetOr(DefaultLimit))
    ensures r.Success? ==>
      exists sorted :: IsHistoryOrder(sorted, rows, auth.value.userId)
        && r.data.transactions
           == ProjectAll(auth.value.userId, Window(sorted, offset.GetOr(DefaultOffset), limit.GetOr(DefaultLimit)))
    ensures r.Success? ==>
      forall i :: 0 <= i < |r.data.transactions| ==>
        exists t :: t in rows && Involves(t, auth.value.userId)
                    && r.data.transactions[i] == Project(auth.value.userId, t)
    ensures r.Success? ==>
      forall i, j :: 0 <= i < j < |r.data.transactions| ==>
        r.data.transactions[i].date >= r.data.transactions[j].date
  {
    if auth.None? then Failure(AuthenticationRequired)
    else if queryError.Some? then Failure(ApiError(500, "Failed to fetch transactions: " + queryError.value))
    else
      var lim := limit.GetOr(DefaultLimit);
      var page := Query(rows, auth.value.userId, offset.GetOr(DefaultOffset), lim);
      var txs := ProjectAll(auth.value.userId, page);
      assert |txs| == |page| <= lim;
      Success(TransactionsPage(txs, |txs|))
  }

  /**
   * A peer transfer between two different users, of any kind but
   * `gateway_qr`, is a purchase for the sender and a transfer received for
   * the receiver, with the same id and amount on both sides.
   */
  lemma HistorySymmetry(t: TransferRow, x: string, y: string)
    requires t.senderId == Some(x) && t.receiverId == Some(y) && x != y
    requires t.kind != GatewayQr
    ensures Project(x, t).txType == Purchase && Project(y, t).txType == BuTransfer
    ensures Project(x, t).id == Project(y, t).id && Project(x, t).amount == Project(y, t).amount
    ensures Project(x, t).description == SentPrefix + NameOrUser(t.receiverFirstName)
    ensures Project(y, t).description == ReceivedPrefix + NameOrUser(t.senderFirstName)
  {
  }

  /** A `gateway_qr` row is a received transfer for both of its parties. */
  lemma GatewayQrIsAlwaysTransfer(t: TransferRow, userId: string)
    requires t.kind == GatewayQr
    ensures Project(userId, t).txType == BuTransfer
  {
  }
}

=== FILE: users_me.dfy ===
/**
 * The current-user endpoint: reading the signed-in user's profile (GET)
 * and updating it, including the one-way upgrade to a vendor account (PUT).
 * The users table is an input sequence of rows; the store's own failures
 * are inputs too.
 */
module UsersMe {

  import opened Wrappers
  import opened Roles
  import opened Api

  /** A users row, as far as the handlers select it. */
  datatype UserRow = UserRow(
    id: string,
    phoneNumber: string,
    firstName: string,
    lastName: string,
    email: Option<string>,
    role: Role,
    createdAt: int)

  /** A user as the endpoint returns it: the row plus the composed display name. */
  datatype UserView = UserView(
    id: string,
    phoneNumber: string,
    firstName: string,
    lastName: string,
    email: Option<string>,
    role: Role,
    createdAt: int,
    name: string)

  /** The display name: first name, one space, last name. */
  function DisplayName(first: string, last: string): string {
    first + " " + last
  }

  function ToView(u: UserRow): UserView {
    UserView(u.id, u.phoneNumber, u.firstName, u.lastName, u.email, u.role, u.createdAt,
             DisplayName(u.firstName, u.lastName))
  }

  /** The row a view was made from. */
  predicate ViewOf(v: UserView, u: UserRow) {
    v.id == u.id && v.phoneNumber == u.phoneNumber && v.firstName == u.firstName
    && v.lastName == u.lastName && v.email == u.email && v.role == u.role && v.createdAt == u.createdAt
  }

  /** The first row with the given id (ids are the table's primary key). */
  function FindById(users: seq<UserRow>, id: string): (r: Option<UserRow>)
    ensures r.Some? ==> r.value in users && r.value.id == id
    ensures r.None? <==> forall i :: 0 <= i < |users| ==> users[i].id != id
  {
    if |users| == 0 then None
    else if users[0].id == id then Some(users[0])
    else FindById(users[1..], id)
  }

  /** The rows with the given phone number, in table order. */
  function WithPhone(users: seq<UserRow>, phone: string): (r: seq<UserRow>)
    ensures forall i :: 0 <= i < |r| ==> r[i] in users && r[i].phoneNumber == phone
    ensures forall i :: 0 <= i < |users| && users[i].phoneNumber == phone ==> users[i] in r
    ensures forall x :: multiset(r)[x] == if x.phoneNumber == phone then multiset(users)[x] else 0
  {
    if |users| == 0 then []
    else
      assert users == [users[0]] + users[1..];
      var rest := WithPhone(users[1..], phone);
      if users[0].phoneNumber == phone then [users[0]] + rest else rest
  }

  const InvalidSession := ApiError(401, "Authentication invalid - please log in again")

  /**
   * GET: the signed-in user's profile. A missing row for the token's id
   * falls back to the one row holding the token's phone number; a lookup by
   * phone that finds no row, or several, leaves the session invalid.
   */
  function GetMe(auth: Option<AuthUser>, users: seq<UserRow>, queryError: Option<string>): (r: Response<UserView>)
    ensures auth.None? ==> r == Failure(AuthenticationRequired)
    ensures auth.Some? && queryError.Some? ==> r == Failure(ApiError(500, "Database error: " + queryError.value))
    ensures r.Success? ==> r.data.name == DisplayName(r.data.firstName, r.data.lastName)
    ensures r.Success? ==>
      exists i :: 0 <= i < |users| && ViewOf(r.data, users[i])
                  && (users[i].id == auth.value.userId || users[i].phoneNumber == auth.value.phoneNumber)
    ensures auth.Some? && queryError.None? && (exists i :: 0 <= i < |users| && users[i].id == auth.value.userId)
            ==> r.Success? && r.data.id == auth.value.userId
    ensures r == Failure(InvalidSession) <==>
      auth.Some? && queryError.None?
      && (forall i :: 0 <= i < |users| ==> users[i].id != auth.value.userId)
      && |WithPhone(users, auth.value.phoneNumber)| != 1
    ensures auth.Some? && queryError.None?
            && (forall i :: 0 <= i < |users| ==> users[i].id != auth.value.userId)
            && |WithPhone(users, auth.value.phoneNumber)| == 1
            ==> r == Success(ToView(WithPhone(users, auth.value.phoneNumber)[0]))
  {
    if auth.None? then Failure(AuthenticationRequired)
    else if queryError.Some? then Failure(ApiError(500, "Database error: " + queryError.value))
    else
      match FindById(users, auth.value.userId)
      case Some(u) => Success(ToView(u))
      case None =>
        var byPhone := WithPhone(users, auth.value.phoneNumber);
        if |byPhone| == 1 then Success(ToView(byPhone[0]))
        else Failure(InvalidSession)
  }

  /** A field of the JSON request body: absent, `null`, or a string. */
  datatype Field = Absent | Null | Text(s: string)

  /** JavaScript truthiness of a body field: a non-empty string. */
  predicate Truthy(f: Field) {
    f.Text? && f.s != ""
  }

  /** The PUT body. `upgradeToVendor` is true when the field is the JSON literal `true`. */
  datatype UpdateBody = UpdateBody(firstName: Field, lastName: Field, email: Field, upgradeToVendor: bool)

  /**
   * The columns the update will write, one entry per key of the update
   * object. `email` is `Some(None)` when the body sends `null`.
   */
  datatype UpdateData = UpdateData(
    firstName: Option<string>,
    lastName: Option<string>,
    email: Option<Option<string>>,
    role: Option<Role>)

  /** The update object has no keys. */
  predicate IsEmpty(d: UpdateData) {
    d.firstName.None? && d.lastName.None? && d.email.None? && d.role.None?
  }

  /**
   * The role entry an upgrade request adds, given the role read back for the
   * user (None when no row was found): `user` and `celebrant` become `both`;
   * every other role adds nothing.
   */
  function RoleUpgrade(current: Option<Role>): Option<Role> {
    match current
    case Some(User) => Some(Both)
    case Some(Celebrant) => Some(Both)
    case _ => None
  }

  /** The role an account holds after an upgrade request. */
  function UpgradedRole(r: Role): (u: Role)
    ensures u == r || u == Both
    ensures HasVendorAccess(u) <==> !IsStaff(r)
    ensures HasGuestAccess(r) ==> HasGuestAccess(u)
    ensures u != r <==> r == User || r == Celebrant
  {
    RoleUpgrade(Some(r)).GetOr(r)
  }

  /** Upgrading an upgraded role changes nothing. */
  lemma UpgradeIdempotent(r: Role)
    ensures UpgradedRole(UpgradedRole(r)) == UpgradedRole(r)
  {
  }

  function EmailEntry(f: Field): Option<Option<string>> {
    match f
    case Absent => None
    case Null => Some(None)
    case Text(s) => Some(Some(s))
  }

  /**
   * The update object: names only when truthy, the email whenever the key is
   * present (empty string and `null` included), and the upgraded role when
   * an upgrade is asked for and changes something.
   */
  function BuildUpdate(body: UpdateBody, currentRole: Option<Role>): (d: UpdateData)
    ensures d.firstName.Some? <==> Truthy(body.firstName)
    ensures d.firstName.Some? ==> body.firstName == Text(d.firstName.value)
    ensures d.lastName.Some? <==> Truthy(body.lastName)
    ensures d.lastName.Some? ==> body.lastName == Text(d.lastName.value)
    ensures d.email.Some? <==> body.email != Absent
    ensures d.email == Some(None) <==> body.email == Null
    ensures body.email.Text? ==> d.email == Some(Some(body.email.s))
    ensures d.role.Some? <==> body.upgradeToVendor && currentRole.Some? && HasGuestAccess(currentRole.value) && currentRole.value != Both
    ensures d.role.Some? ==> d.role.value == Both
  {
    UpdateData(
      if Truthy(body.firstName) then Some(body.firstName.s) else None,
      if Truthy(body.lastName) then Some(body.lastName.s) else None,
      EmailEntry(body.email),
      if body.upgradeToVendor then RoleUpgrade(currentRole) else None)
  }

  /** The row after the update writes the entries present in `d`. */
  function Apply(u: UserRow, d: UpdateData): (w: UserRow)
    ensures w.id == u.id && w.phoneNumber == u.phoneNumber && w.createdAt == u.createdAt
    ensures IsEmpty(d) ==> w == u
    ensures w.firstName == if d.firstName.Some? then d.firstName.value else u.firstName
    ensures w.lastName == if d.lastName.Some? then d.lastName.value else u.lastName
    ensures w.email == if d.email.Some? then d.email.value else u.email
    ensures w.role == if d.role.Some? then d.role.value else u.role
  {
    UserRow(u.id, u.phoneNumber, d.firstName.GetOr(u.firstName), d.lastName.GetOr(u.lastName),
            d.email.GetOr(u.email), d.role.GetOr(u.role), u.createdAt)
  }

  /** Writing the same update twice leaves the row as one write did. */
  lemma ApplyIdempotent(u: UserRow, d: UpdateData)
    ensures Apply(Apply(u, d), d) == Apply(u, d)
  {
  }

  const NoFieldsToUpdate := ApiError(400, "No fields to update")

  /** The row is missing when the update runs; the store's wording is not modelled. */
  const MissingRow := "no user row matches the id"

  /**
   * PUT: authenticate, assemble the update from the body (reading the
   * current role only for an upgrade), refuse an empty update, then write it
   * and return the updated user.
   */
  function PutMe(auth: Option<AuthUser>, body: UpdateBody, users: seq<UserRow>, storeError: Option<string>): (r: Response<UserView>)
    ensures auth.None? ==> r == Failure(AuthenticationRequired)
    ensures r == Failure(NoFieldsToUpdate) <==>
      auth.Some? && IsEmpty(BuildUpdate(body, RoleOf(users, auth.value.userId)))
    ensures r.Success? ==>
      auth.Some? && storeError.None?
      && exists i :: 0 <= i < |users| && users[i].id == auth.value.userId
                     && ViewOf(r.data, Apply(users[i], BuildUpdate(body, Some(users[i].role))))
                     && r.data.role == (if body.upgradeToVendor then UpgradedRole(users[i].role) else users[i].role)
    ensures r.Success? ==> r.data.name == DisplayName(r.data.firstName, r.data.lastName)
    ensures auth.Some? && !IsEmpty(BuildUpdate(body, RoleOf(users, auth.value.userId))) && storeError.Some? ==>
      r == Failure(ApiError(500, "Failed to update user: " + storeError.value))
    ensures auth.Some? && !IsEmpty(BuildUpdate(body, RoleOf(users, auth.value.userId))) && storeError.None? ==>
      (r.Success? <==> RoleOf(users, auth.value.userId).Some?)
    ensures auth.Some? && !IsEmpty(BuildUpdate(body, RoleOf(users, auth.value.userId))) && storeError.None?
            && RoleOf(users, auth.value.userId).None? ==>
      r == Failure(ApiError(500, "Failed to update user: " + MissingRow))
  {
    if auth.None? then Failure(AuthenticationRequired)
    else
      var current := FindById(users, auth.value.userId);
      var d := BuildUpdate(body, if current.Some? then Some(current.value.role) else None);
      if IsEmpty(d) then Failure(NoFieldsToUpdate)
      else if storeError.Some? then Failure(ApiError(500, "Failed to update user: " + storeError.value))
      else if current.None? then Failure(ApiError(500, "Failed to update user: " + MissingRow))
      else Success(ToView(Apply(current.value, d)))
  }

  /** The role read back for a user id, None when no row has it. */
  function RoleOf(users: seq<UserRow>, id: string): Option<Role> {
    match FindById(users, id)
    case Some(u) => Some(u.role)
    case None => None
  }

  /** The table after the update: every row with the id rewritten, the others untouched. */
  function Updated(users: seq<UserRow>, id: string, d: UpdateData): (r: seq<UserRow>)
    ensures |r| == |users|
    ensures forall i :: 0 <= i < |r| ==> r[i] == if users[i].id == id then Apply(users[i], d) else users[i]
  {
    seq(|users|, i requires 0 <= i < |users| => if users[i].id == id then Apply(users[i], d) else users[i])
  }

  /** After the update, the lookup by id finds the updated form of the row it found before. */
  lemma {:induction false} FindByIdAfterUpdate(users: seq<UserRow>, id: string, d: UpdateData)
    ensures FindById(Updated(users, id, d), id)
            == if FindById(users, id).Some? then Some(Apply(FindById(users, id).value, d)) else None
  {
    if |users| > 0 {
      assert Updated(users, id, d)[1..] == Updated(users[1..], id, d);
      if users[0].id != id {
        FindByIdAfterUpdate(users[1..], id, d);
      }
    }
  }

  /** A read after an accepted update returns the user the update returned. */
  lemma PutThenGet(auth: AuthUser, body: UpdateBody, users: seq<UserRow>)
    requires PutMe(Some(auth), body, users, None).Success?
    ensures GetMe(Some(auth), Updated(users, auth.userId, BuildUpdate(body, RoleOf(users, auth.userId))), None)
            == PutMe(Some(auth), body, users, None)
  {
    FindByIdAfterUpdate(users, auth.userId, BuildUpdate(body, RoleOf(users, auth.userId)));
  }

  /** A body that asks only for the vendor upgrade. */
  const UpgradeOnly := UpdateBody(Absent, Absent, Absent, true)

  /**
   * An upgrade-only request on an account whose role is already `vendor` or
   * `both` (or is staff) is refused as an empty update rather than accepted
   * as a no-op.
   */
  lemma UpgradeOnlyRejectedWithoutGuestRole(auth: AuthUser, users: seq<UserRow>, storeError: Option<string>)
    requires RoleOf(users, auth.userId).Some?
    requires !(RoleOf(users, auth.userId).value == User || RoleOf(users, auth.userId).value == Celebrant)
    ensures PutMe(Some(auth), UpgradeOnly, users, storeError) == Failure(NoFieldsToUpdate)
  {
  }

  /** An upgrade-only request on a `user` or `celebrant` account that the store accepts returns the role `both`. */
  lemma UpgradeOnlyOnGuestRole(auth: AuthUser, users: seq<UserRow>)
    requires RoleOf(users, auth.userId) == Some(User) || RoleOf(users, auth.userId) == Some(Celebrant)
    ensures PutMe(Some(auth), UpgradeOnly, users, None).Success?
    ensures PutMe(Some(auth), UpgradeOnly, users, None).data.role == Both
  {
  }

  /** A request with no user row behind the token and no names or email is refused as empty. */
  lemma UpgradeOnlyWithoutRow(auth: AuthUser, users: seq<UserRow>, storeError: Option<string>)
    requires RoleOf(users, auth.userId).None?
    ensures PutMe(Some(auth), UpgradeOnly, users, storeError) == Failure(NoFieldsToUpdate)
  {
  }
}

=== FILE: wallet.dfy ===
/**
 * The wallet screen: the balance it shows, the history page it asks for,
 * how each history row is drawn (arrow, colours, sign), and the check a
 * top-up amount must pass before any request is made.
 */
module Wallet {

  import opened Wrappers
  import opened Api
  import opened Transactions

  /** The history request the screen makes: the first fifty rows. */
  const HistoryLimit: nat := 50
  const HistoryOffset: nat := 0

  /** The wallet screen's request is the endpoint's default page. */
  lemma HistoryRequestIsDefaultPage(auth: Option<AuthUser>, rows: seq<TransferRow>, queryError: Option<string>)
    ensures ListTransactions(auth, rows, Some(HistoryLimit), Some(HistoryOffset), queryError)
         == ListTransactions(auth, rows, None, None, queryError)
  {
  }

  /** Money coming in: top-ups, refunds and transfers received. */
  predicate IsIncoming(t: TxType) {
    t == Topup || t == Refund || t == BuTransfer
  }

  datatype Arrow = ArrowDown | ArrowUp
  datatype Tone = PrimaryTone | DestructiveTone | ForegroundTone

  /** The four parts of a row's look; the screen decides each one with its own test. */
  datatype RowLook = RowLook(badge: Tone, arrow: Arrow, amountTone: Tone, sign: char)

  function BadgeTone(t: TxType): Tone {
    match t
    case Topup => PrimaryTone
    case Refund => PrimaryTone
    case BuTransfer => PrimaryTone
    case _ => DestructiveTone
  }

  function ArrowOf(t: TxType): Arrow {
    match t
    case Topup => ArrowDown
    case Refund => ArrowDown
    case BuTransfer => ArrowDown
    case _ => ArrowUp
  }

  function AmountTone(t: TxType): Tone {
    match t
    case Topup => PrimaryTone
    case Refund => PrimaryTone
    case BuTransfer => PrimaryTone
    case _ => ForegroundTone
  }

  function SignOf(t: TxType): char {
    match t
    case Topup => '+'
    case Refund => '+'
    case BuTransfer => '+'
    case _ => '-'
  }

  /**
   * How one transaction is drawn. All four parts agree: a row shows `+`
   * exactly when it shows the down arrow and the primary colours, exactly
   * when it is incoming.
   */
  function Look(tx: Transaction): (r: RowLook)
    ensures r.sign == '+' <==> IsIncoming(tx.txType)
    ensures r.sign == '-' <==> !IsIncoming(tx.txType)
    ensures r.arrow == ArrowDown <==> r.sign == '+'
    ensures r.badge == PrimaryTone <==> r.sign == '+'
    ensures r.amountTone == PrimaryTone <==> r.sign == '+'
    ensures r.sign == '-' ==> r.badge == DestructiveTone && r.amountTone == ForegroundTone
  {
    RowLook(BadgeTone(tx.txType), ArrowOf(tx.txType), AmountTone(tx.txType), SignOf(tx.txType))
  }

  /**
   * As the user sees a row: minus exactly for a transfer the user sent
   * whose kind is not `gateway_qr`; plus for everything received and for
   * every `gateway_qr` transfer, sent ones included.
   */
  lemma ShownSign(userId: string, t: TransferRow)
    ensures Look(Project(userId, t)).sign == '-' <==> t.senderId == Some(userId) && t.kind != GatewayQr
    ensures t.senderId != Some(userId) ==> Look(Project(userId, t)).sign == '+'
    ensures t.kind == GatewayQr ==> Look(Project(userId, t)).sign == '+'
  {
  }

  /** A `gateway_qr` transfer the user sent is drawn as money coming in. */
  lemma SentGatewayQrShowsPlus(userId: string, t: TransferRow)
    requires t.senderId == Some(userId) && t.kind == GatewayQr
    ensures Look(Project(userId, t)).sign == '+'
    ensures Look(Project(userId, t)).arrow == ArrowDown
  {
  }

  /** The two parties of a peer transfer see opposite signs, unless it is a `gateway_qr` transfer. */
  lemma PeerTransferOppositeSigns(t: TransferRow, x: string, y: string)
    requires t.senderId == Some(x) && t.receiverId == Some(y) && x != y
    ensures t.kind != GatewayQr <==> Look(Project(x, t)).sign != Look(Project(y, t)).sign
  {
  }

  /** The wallet-read response, as far as the screen uses it. */
  datatype WalletResponse =
    | WalletFailed
    | WalletOk(wallet: Option<WalletData>)

  /** The wallet record; `balance` is the parsed balance, None when the field is missing or falsy. */
  datatype WalletData = WalletData(balance: Option<real>)

  /** The balance the screen shows before any response arrives. */
  const InitialBalance: real := 0.0

  /**
   * The balance after a wallet read: the record's balance, 0 when its
   * balance field is missing, and the previous value when the read failed
   * or returned no wallet.
   */
  function BalanceAfterRead(previous: real, response: WalletResponse): (b: real)
    ensures response.WalletOk? && response.wallet.Some? && response.wallet.value.balance.None? ==> b == 0.0
    ensures response.WalletOk? && response.wallet.Some? && response.wallet.value.balance.Some? ==>
      b == response.wallet.value.balance.value
    ensures !(response.WalletOk? && response.wallet.Some?) ==> b == previous
  {
    match response
    case WalletOk(Some(w)) => w.balance.GetOr(0.0)
    case _ => previous
  }

  /** The read returned a wallet record. */
  predicate Loaded(response: WalletResponse) {
    response.WalletOk? && response.wallet.Some?
  }

  /** The balance shown after a run of wallet responses, starting from the initial balance. */
  function ShownBalance(responses: seq<WalletResponse>): real {
    if |responses| == 0 then InitialBalance
    else BalanceAfterRead(ShownBalance(responses[..|responses| - 1]), responses[|responses| - 1])
  }

  /**
   * The balance shown is the one of the last read that returned a wallet
   * (0 when that record has no balance), and the initial balance when no
   * read has returned one.
   */
  lemma ShownBalanceIsLastLoaded(responses: seq<WalletResponse>)
    ensures (forall i :: 0 <= i < |responses| ==> !Loaded(responses[i])) ==> ShownBalance(responses) == 0.0
    ensures forall i :: 0 <= i < |responses| && Loaded(responses[i])
                        && (forall j :: i < j < |responses| ==> !Loaded(responses[j])) ==>
      ShownBalance(responses) == responses[i].wallet.value.balance.GetOr(0.0)
  {
    if forall i :: 0 <= i < |responses| ==> !Loaded(responses[i]) {
      NoneLoaded(responses);
    }
    forall i | 0 <= i < |responses| && Loaded(responses[i]) && (forall j :: i < j < |responses| ==> !Loaded(responses[j]))
      ensures ShownBalance(responses) == responses[i].wallet.value.balance.GetOr(0.0)
    {
      AfterLastLoaded(responses, i);
    }
  }

  /** When no read returned a wallet, the initial balance is still shown. */
  lemma {:induction false} NoneLoaded(responses: seq<WalletResponse>)
    requires forall i :: 0 <= i < |responses| ==> !Loaded(responses[i])
    ensures ShownBalance(responses) == InitialBalance
    decreases |responses|
  {
    if |responses| > 0 {
      var init := responses[..|responses| - 1];
      forall i | 0 <= i < |init|
        ensures !Loaded(init[i])
      {
        assert init[i] == responses[i];
      }
      NoneLoaded(init);
    }
  }

  /** After the read at `i` returned a wallet and no later one did, that wallet's balance is shown. */
  lemma {:induction false} AfterLastLoaded(responses: seq<WalletResponse>, i: nat)
    requires i < |responses| && Loaded(responses[i])
    requires forall j :: i < j < |responses| ==> !Loaded(responses[j])
    ensures ShownBalance(responses) == responses[i].wallet.value.balance.GetOr(0.0)
    decreases |responses|
  {
    var n := |responses|;
    if i < n - 1 {
      var init := responses[..n - 1];
      assert init[i] == responses[i];
      forall j | i < j < n - 1
        ensures !Loaded(init[j])
      {
        assert init[j] == responses[j];
      }
      AfterLastLoaded(init, i);
    }
  }

  /** The outcome of pressing Top Up: refused before any request, or a request for `amount`. */
  datatype TopupDecision = InvalidAmount(message: string) | RequestTopup(amount: real)

  const InvalidAmountMessage := "Please enter a valid amount"

  /**
   * The top-up check. `parsed` is the number the typed text converts to,
   * None when it is not a number.
   */
  function DecideTopup(typed: string, parsed: Option<real>): (d: TopupDecision)
    ensures d.RequestTopup? <==> typed != "" && parsed.Some? && parsed.value > 0.0
    ensures d.RequestTopup? ==> d.amount == parsed.value && d.amount > 0.0
    ensures d.InvalidAmount? ==> d.message == InvalidAmountMessage
  {
    if typed == "" || parsed.None? || parsed.value <= 0.0 then InvalidAmount(InvalidAmountMessage)
    else RequestTopup(parsed.value)
  }
}

=== FILE: wrappers.dfy ===
/** Optional values: a JavaScript `undefined`/`null` or a missing row. */
module Wrappers {

  datatype Option<+T> = None | Some(value: T) {

    /** Returns the value held in Some, or `default` for None. */
    function GetOr(default: T): T {
      match this
      case Some(v) => v
      case None => default
    }
  }
}
